=== FILE: README.md ===
# laravel-predator-api-utils: a verified model of the request guards and response helpers

This project models the small decision functions of the Laravel package
`laravel-predator-api-utils`:

- the **DecryptJWToken** middleware, which reads the bearer token from the
  Authorization header, has `firebase/php-jwt` verify it, and either attaches
  the decoded claims to the request under `auth_user` or answers with one of
  five error responses;
- the **DecryptedJWToken** claim reader, whose getters look a claim up under an
  explicit key or the configured one, each with its own default and its
  declared return type;
- the **RoleMiddleware**, which forwards a request only when the role claim is
  truthy and listed for the route, and otherwise answers 403;
- the **ApiResponse** trait (`api_response` envelope, `paginated_response`
  split), the **HandlesErrors** trait (`handleErrors`) and the
  **PaginationRules** trait (`paginationRules`, `buildDynamicRules`,
  `validatedFields`).

Everything is a pure function over immutable values. A request is a record of
the Authorization header and the request input. A middleware's result is an
`Outcome`: `Next(request)` means `$next` is called once with that request,
`Reply(response)` is the middleware's own response, and `Throw(error)` is an
exception escaping it. Framework calls become parameters or constants:

- `JWT::decode` is the function parameter `Decoder`, returning
  `Decoded(claims) | SignatureInvalid | Expired | BeforeValid | OtherFailure`;
- the `Config` facade becomes `ClaimKeys` (the five claim names) and
  `JwtConfig` (secret and algorithm);
- Symfony's reason-phrase table is the function `Responses.StatusText`.

PHP's runtime rules that decide outcomes are written out in module `Php`:

- `""` and `"0"` are the falsy strings;
- `??` treats an absent key and a stored null alike;
- `$a ?: $b` falls back on any falsy string;
- `str_replace` removes every occurrence;
- a function without strict types coerces its return value to the declared type, or throws a TypeError.

Symfony's `JsonResponse` refuses status codes outside 100..599 with an exception.

Because the claim reader is a pure function of the stored claims, no getter
can change them. `getData` is `Claims.GetData`.

Files: `php.dfy` (runtime), `http.dfy` (request, response, outcome),
`responses.dfy`, `errors.dfy`, `pagination.dfy`, `claims.dfy`,
`authentication.dfy`, `authorization.dfy`, `pipeline.dfy` (both middlewares in
route order).

Behaviour worth knowing, as the code has it:

- The role check is exact string membership. `src/config/role_check.php`
  declares a `case_sensitive` flag (off by default) and a message template,
  but `RoleMiddleware` never reads that file. So `"Admin"` is refused against
  `["admin"]`, and the refusal message is fixed.
- `str_replace` removes `"Bearer "` wherever it occurs in the header, not only
  as a prefix. `Authentication.BearerTokenRoundTrip` shows that this is the same
  as stripping the prefix for every token made of JWT characters.

## Model

| member | source | states |
|---|---|---|
| Php.StrReplace | src/Middlewares/DecryptJWToken.php:43 | `str_replace` leaves a subject without the search string unchanged; a replacement no longer than the search never lengthens the subject, and a shorter one strictly shortens any subject that holds an occurrence |
| Php.StrReplaceFirstOccurrence | src/Middlewares/DecryptJWToken.php:43 | for any subject, the text before the first occurrence of the search string is kept unchanged, that occurrence becomes the replacement, and the rest of the subject is processed in turn |
| Php.DecimalRoundTrip | src/Traits/ApiResponse.php:33 | PHP's int-to-string conversion reads back as the same integer |
| Php.IndexMap | src/Traits/ApiResponse.php:34 | a list merged as an array puts element i under key "i", for every position i |
| Php.IndexMapKeys | src/Traits/ApiResponse.php:34 | a merged list has no keys other than its positions |
| Php.AsNullableString | src/Services/DecryptedJWToken.php:34-38 | a `?string` return: null stays null, a string is kept, an int becomes its decimal string, which reads back as the int; true becomes "1" and false "", so the string is truthy exactly when the bool is true; arrays and objects throw a TypeError |
| Php.AsNullableIntOrString | src/Services/DecryptedJWToken.php:22-26 | a return declared int, string or null: ints, strings and null are kept, a bool becomes 0 or 1, arrays and objects throw a TypeError |
| Php.AsNullableArray | src/Services/DecryptedJWToken.php:40-44 | a `?array` return succeeds exactly for null and arrays, unchanged |
| Php.AsNullableInt | src/Services/DecryptedJWToken.php:46-50 | a `?int` return: ints are kept, bools become 0 or 1, a string succeeds exactly when it is an integer numeric string, anything else throws |
| Responses.StatusLineCode | src/Traits/ApiResponse.php:32-33 | the `status` field starts with the code, which reads back as the code, followed by a space |
| Responses.StatusLineCreated | src/Traits/ApiResponse.php:32-33 | code 201 gives the status "201 Created" |
| Responses.StatusLineForbidden | src/Traits/ApiResponse.php:32-33 | code 403 gives the status "403 Forbidden" |
| Responses.StatusLineUnknown | src/Traits/ApiResponse.php:32 | a code missing from the reason table gives "Unknown status" as its reason |
| Responses.DataEntries | src/Traits/ApiResponse.php:34 | `$data ?? []` merges no entries for null, a string-keyed array's own entries, and a list's elements keyed by position and nothing else; any non-array throws a TypeError, and no other error |
| Responses.ApiResponse | src/Traits/ApiResponse.php:30-37 | the response succeeds exactly for null or array data and a valid code; its HTTP status is the code; its keys are `status`, `message` and every data key; every data key keeps its value; `status` and `message` hold the status line and message unless the data overrides them |
| Responses.ApiResponseWithoutData | src/Traits/ApiResponse.php:34 | with null data the body is exactly `{status, message}` |
| Responses.ApiResponseCreatedExample | src/Traits/ApiResponse.php:30-37 | `api_response("ok", ['id' => 1], 201)` is `{"status":"201 Created","message":"ok","id":1}` with status 201 |
| Responses.ApiResponseListKeepsEnvelope | src/Traits/ApiResponse.php:32-34 | list data never overrides `status` or `message`, since its keys are positions; each element sits under its position |
| Responses.ApiResponseDataOverrides | src/Traits/ApiResponse.php:34 | data carrying both `status` and `message` replaces both envelope fields |
| Responses.PaginatedResponse | src/Traits/ApiResponse.php:53-60 | the first part is the `data` member when it is set and non-null; the second part has every other key with its value, and loses `data` only when `data` was returned |
| Responses.PaginatedResponseRoundTrip | src/Traits/ApiResponse.php:55-59 | putting the items back under `data` rebuilds the original response |
| Responses.PaginatedResponseWithoutData | src/Traits/ApiResponse.php:56-57 | without `data` the items are null and the metadata is the whole response |
| Responses.PaginatedResponseExample | src/Traits/ApiResponse.php:53-60 | `{data:[1,2,3], total:3, page:1}` splits into `[1,2,3]` and `{total:3, page:1}` |
| Errors.HandleErrors | src/Traits/HandlesErrors.php:28-40 | a completed callback's value is returned unchanged; a throw is answered with the thrown status code or 500, and the body is exactly status line, the caller's message or "Something went wrong", and the thrown message under `error`; a code Symfony refuses escapes as an exception |
| Errors.HandleErrorsDefaults | src/Traits/HandlesErrors.php:33-35 | without its own status code a throw is answered with 500; only a null message is replaced by the default |
| Errors.HandleErrorsUnknownStatus | src/Traits/HandlesErrors.php:33-38 | a status code outside the reason table is still answered, with "Unknown status" |
| Pagination.BuildDynamicRules | src/Traits/PaginationRules.php:50-77 | exactly one rule per base field, each wrapping that field's base rule |
| Pagination.PaginationRules | src/Traits/PaginationRules.php:23-34 | the keys are the four pagination parameters plus the base fields; a base field's rule wins over a default of the same name; other defaults are kept |
| Pagination.PaginationRulesHasDefaults | src/Traits/PaginationRules.php:25-31 | `sort`, `per_page`, `page` and `cursor` always have a rule |
| Pagination.ValidatedFields | src/Traits/PaginationRules.php:95-100 | the kept keys are exactly those in both the data and the rules, with their original values |
| Pagination.ValidatedFieldsIdempotent | src/Traits/PaginationRules.php:99 | filtering twice by the same rules equals filtering once |
| Pagination.ValidatedFieldsNoRules | src/Traits/PaginationRules.php:98-99 | with no rules nothing is kept |
| Pagination.ValidatedFieldsDependsOnKeysOnly | src/Traits/PaginationRules.php:98 | only the rule names matter, not the rules themselves |
| Pagination.ValidatedPaginationFields | src/Traits/PaginationRules.php:98-99 | filtering by `paginationRules` keeps exactly the data fields that are pagination parameters or base fields |
| Claims.FromRequest | src/Services/DecryptedJWToken.php:12-15 | no or null `auth_user` gives empty claims; a string-keyed array is taken as the claims; a list is taken as the claims keyed by position; any non-array throws a TypeError, and no other error |
| Claims.GetDataReturnsStoredClaims | src/Services/DecryptedJWToken.php:12-20 | `getData()` returns exactly the claims stored under `auth_user` as a string-keyed array, and `[]` when none or null is stored |
| Claims.GetUserId | src/Services/DecryptedJWToken.php:22-26 | looks up the chosen key: absent or null gives null, an int or string is returned as is, true and false become 1 and 0, and it throws a TypeError exactly for array or object claims |
| Claims.GetUserName | src/Services/DecryptedJWToken.php:28-32 | absent or null gives null, a string claim is returned, an int claim comes back as its decimal string, true and false come back as "1" and "", and it throws a TypeError exactly for array or object claims |
| Claims.GetUserRole | src/Services/DecryptedJWToken.php:34-38 | absent or null gives null, a string claim is returned, an int claim comes back as its decimal string, true and false come back as "1" and "", and it throws a TypeError exactly for array or object claims |
| Claims.GetUserRoles | src/Services/DecryptedJWToken.php:40-44 | absent or null gives `[]` rather than null, an array claim is returned, and it throws exactly for any other claim |
| Claims.GetTokenExpiryTime | src/Services/DecryptedJWToken.php:46-50 | absent or null gives null; an int claim is returned; a bool gives 0 or 1; a string claim succeeds exactly when it is integer-numeric, with the integer it denotes; array and object claims throw a TypeError |
| Claims.NoClaimsGiveDefaults | src/Services/DecryptedJWToken.php:14 | without `auth_user` the claims are empty and every getter returns its default, whatever key is asked for |
| Claims.ExplicitPropOverridesConfig | src/Services/DecryptedJWToken.php:36 | for every getter, a truthy explicit key behaves as if configuration had named it |
| Claims.FalsyPropFallsBack | src/Services/DecryptedJWToken.php:24 | for every getter, the explicit keys "" and "0" fall back to the configured key |
| Claims.DefaultRoleClaim | src/config/decrypted_jwt_token.php:6 | with the shipped configuration the role is read from the `role` claim |
| Authentication.BearerToken | src/Middlewares/DecryptJWToken.php:43 | the header handed on as the token differs from the header exactly when "Bearer " occurs in it, and is never longer |
| Authentication.BearerTokenDropsInnerPrefix | src/Middlewares/DecryptJWToken.php:43 | for any text of JWT characters before an occurrence of "Bearer ", that text is kept, the occurrence is removed, and the rest is stripped in turn |
| Authentication.BearerTokenRoundTrip | src/Middlewares/DecryptJWToken.php:43 | for `Bearer <token>` with a token of JWT characters, the library receives exactly the token |
| Authentication.BearerTokenWithoutPrefix | src/Middlewares/DecryptJWToken.php:43 | a header without "Bearer " reaches the library unchanged |
| Authentication.BearerTokenRemovesInnerOccurrence | src/Middlewares/DecryptJWToken.php:43 | "Bearer " is removed from the middle of a header too |
| Authentication.BearerTokenAfterOtherScheme | src/Middlewares/DecryptJWToken.php:43 | a header `Token Bearer abc` is handed on as `Token abc`: only the "Bearer " part goes |
| Authentication.Handle | src/Middlewares/DecryptJWToken.php:36-64 | a missing or falsy header gets 401 "Authentication credentials are missing."; otherwise the request is forwarded, with `auth_user` set to the claims, exactly when the stripped token decodes; SignatureInvalid gets 500, Expired 401, BeforeValid 401 and any other failure 500, each with its message under `token`; nothing escapes |
| Authentication.ForwardChangesOnlyAuthUser | src/Middlewares/DecryptJWToken.php:50-52 | a forwarded request keeps its header and every other input key, and gains `auth_user` holding the claims |
| Authentication.HandleDependsOnDecodedTokenOnly | src/Middlewares/DecryptJWToken.php:43-50 | the result depends on the library only through its verdict on the stripped token, secret and algorithm |
| Authentication.DefaultAlgorithmIsHS256 | src/Middlewares/DecryptJWToken.php:48 | an unconfigured algorithm is HS256 |
| Authorization.Handle | src/Middlewares/RoleMiddleware.php:39-57 | the request is forwarded unchanged exactly when the role is truthy and listed; otherwise the reply is 403 `{status:"403 Forbidden", message:"You do not have the authorized role to access this route"}`, unless reading the role throws |
| Authorization.ForwardedIffClaimGrants | src/Middlewares/RoleMiddleware.php:41-48 | for a request carrying claims, forwarding happens exactly when the claim under the role key is listed as `getUserRole` returns it: a truthy string, an int in decimal other than 0, or true as "1" |
| Authorization.NoRolesRefusesAll | src/Middlewares/RoleMiddleware.php:47 | with no roles listed nothing is forwarded |
| Authorization.MissingRoleRefused | src/Middlewares/RoleMiddleware.php:44-47 | no claims means the 403 reply |
| Authorization.FalsyRoleRefused | src/Middlewares/RoleMiddleware.php:47 | the roles "" and "0" get the 403 reply even when listed |
| Authorization.RoleComparisonIsCaseSensitive | src/Middlewares/RoleMiddleware.php:47 | role "Admin" is refused against `["admin","editor"]` and accepted against `["Admin"]` |
| Authorization.RoleListOrderIrrelevant | src/Middlewares/RoleMiddleware.php:47 | two role lists with the same members give the same result |
| Pipeline.Protect | src/Middlewares/DecryptJWToken.php:50-52 | the token middleware's refusal is final; a request that gets through both is the authenticated request unchanged; every refusal has status 401, 403 or 500; only the claim reader's TypeError escapes |
| Pipeline.ProtectedIffTokenGrantsRole | src/Middlewares/DecryptJWToken.php:50-52 | behind both middlewares a request gets through exactly when its token decodes and the token's own role claim is listed; the forwarded `auth_user` is the decoded claims, whatever the client sent |
| Pipeline.RoleCheckNeedsTokenCheckFirst | src/Middlewares/RoleMiddleware.php:41-44 | the role middleware alone accepts an `auth_user` supplied in the request input, while behind the token middleware the same request gets 401 |

## Left out

- JWT verification inside `JWT::decode` (signatures, `exp`/`nbf` checks, JSON decoding) is a parameter. The library is foreign code. `Key` construction from the secret is folded into it.
- A non-Exception `Error` thrown by the library (or by `new Key` for a null secret) would escape DecryptJWToken's `catch (\Exception)`. The `Decoder` outcomes do not include it.
- Request and response objects, `Closure $next` and the response `$next` produces are not modelled. `Next(request)` stands for the one call to `$next`.
- Authorization.Handle: `in_array` compares loosely, so numeric role strings compare as numbers (`"1e1"` matches `"10"`). The model compares role strings exactly, because roles are names.
- Responses.ApiResponse: integer-like string keys are integer keys in PHP, and `array_merge` renumbers them. Data maps keep their string keys, and JSON key order is not modelled.
- JSON floats, the 64-bit bound on PHP ints and big integers decoded as strings are not modelled.
- Php.AsNullableInt: reads a string as an int only when it is an optional sign followed by digits. PHP also accepts surrounding whitespace and float or exponent forms, which the model treats as a TypeError.
- Claims.GetTokenExpiryTime: inherits that gap from `Php.AsNullableInt`, so an expiry claim stored as a whitespace-padded, float or exponent numeric string is a TypeError in the model, though PHP reads it as an int.
- Pagination.ValidatedFields: `in_array` compares keys loosely, so a numeric data key can match a differently written numeric rule key. The model compares keys exactly, because field names are strings.
- Pagination.PaginationRules: `array_merge` renumbers integer-like field names instead of letting them override. The model treats every field name as a string key.
- Responses.PaginatedResponse: the `json_decode(json_encode(...))` round trip is not modelled. It turns nested arrays into objects, and the model takes the response as the already decoded top-level object.
- The Laravel `Validator::make` calls inside the `buildDynamicRules` closures are not modelled. A closure is represented by the base rule it captures (`Rule.PerItem`).
- Route parameters named `auth_user`, which `$request->auth_user` also consults, are not modelled.
- The reason-phrase table follows Symfony 7's wording. Older releases word 413 and 422 differently.
- `role_check.php`'s `case_sensitive` flag and message template are not modelled because no code in this package reads them.
- `src/Commands/MakeServiceAndRepository.php` is not part of this model. It is an artisan command that writes template files.

=== FILE: authentication.dfy ===
/**
 * The DecryptJWToken middleware: read the bearer token from the
 * Authorization header, have the JWT library verify and decode it, and
 * either attach the claims to the request under `auth_user` and pass it on,
 * or answer with an error response.
 *
 * Verification itself (RFC 7519 / RFC 7515 signatures, `exp` and `nbf`
 * checks in firebase/php-jwt) is a parameter: a `Decoder` gives the outcome
 * of `JWT::decode` for a token, secret and algorithm.
 */
module Authentication {
  import opened Php
  import opened Http
  import Claims

  /** How `JWT::decode` ends: the claims, or the exception class it threw. */
  datatype DecodeOutcome =
    | Decoded(claims: map<string, Value>)
    | SignatureInvalid
    | Expired
    | BeforeValid
    | OtherFailure  // any other \Exception

  /** `JWT::decode($token, new Key($secret, $algorithm))`. */
  type Decoder = (string, Option<string>, string) -> DecodeOutcome

  /** `jwt_secret_key` and `jwt_algorithm` from configuration; either may be unset. */
  datatype JwtConfig = JwtConfig(secretKey: Option<string>, algorithm: Option<string>)

  const BearerPrefix := "Bearer "
  const DefaultAlgorithm := "HS256"

  const MissingCredentials := "Authentication credentials are missing."
  const CouldNotVerify := "We could not verify your session. Please contact an administrator or try again later."
  const SessionExpired := "Your login session has expired. Please log in again."
  const NotYetActive := "Your login session is not yet active."
  const ValidationFailed := "An error occurred while validating your session. Please try again later."

  /** `Config::get('decrypted_jwt_token.jwt_algorithm', 'HS256')`. */
  function Algorithm(config: JwtConfig): string {
    config.algorithm.GetOr(DefaultAlgorithm)
  }

  /** `str_replace('Bearer ', '', $header)`: every occurrence goes, not only a leading one. */
  function BearerToken(header: string): (token: string)
    // the header is changed exactly when the prefix occurs in it, and then shortened
    ensures token == header <==> !Contains(header, BearerPrefix)
    ensures |token| <= |header|
  {
    StrReplace(BearerPrefix, "", header)
  }

  /** The characters of a compact JWS: base64url text and the dots between its parts. */
  predicate IsCompactChar(c: char) {
    ('A' <= c <= 'Z') || ('a' <= c <= 'z') || ('0' <= c <= '9') || c == '-' || c == '_' || c == '.'
  }

  lemma {:induction false} NoSpaceNoBearer(s: string)
    requires forall i :: 0 <= i < |s| ==> IsCompactChar(s[i])
    ensures !Contains(s, BearerPrefix)
    decreases |s|
  {
    if |BearerPrefix| <= |s| {
      assert s[..|BearerPrefix|][6] == s[6] != BearerPrefix[6];
    }
    if |s| > 0 {
      NoSpaceNoBearer(s[1..]);
    }
  }

  /**
   * For a header of the documented shape `Bearer <token>`, where the token
   * is a compact JWT, the library is handed exactly the token.
   */
  lemma BearerTokenRoundTrip(token: string)
    requires forall i :: 0 <= i < |token| ==> IsCompactChar(token[i])
    ensures BearerToken(BearerPrefix + token) == token
  {
    StrReplaceLeading(BearerPrefix, "", token);
    NoSpaceNoBearer(token);
  }

  /** A header without the prefix anywhere reaches the library unchanged. */
  lemma BearerTokenWithoutPrefix(header: string)
    requires !Contains(header, BearerPrefix)
    ensures BearerToken(header) == header
  {
  }

  /** Occurrences past the front are removed too. */
  lemma BearerTokenRemovesInnerOccurrence()
    ensures BearerToken("abcBearer def") == "abcdef"
  {
    assert "abcBearer def" == "abc" + BearerPrefix + "def";
    BearerTokenDropsInnerPrefix("abc", "def");
    NoSpaceNoBearer("def");
  }

  /**
   * Every occurrence is removed, wherever it sits: text of JWT characters
   * before an occurrence is kept, and the scan goes on after it.
   */
  lemma BearerTokenDropsInnerPrefix(a: string, b: string)
    requires forall i :: 0 <= i < |a| ==> IsCompactChar(a[i])
    ensures BearerToken(a + BearerPrefix + b) == a + BearerToken(b)
  {
    var s := a + BearerPrefix + b;
    forall i | 0 <= i < |a|
      ensures !StartsWith(s[i..], BearerPrefix)
    {
      // the seventh character of any window starting inside `a` is not the space
      if i + 6 < |a| {
        assert s[i + 6] == a[i + 6];
      } else {
        assert s[i + 6] == BearerPrefix[i + 6 - |a|];
      }
      assert s[i..][..|BearerPrefix|][6] == s[i + 6];
    }
    StrReplaceFirstOccurrence(BearerPrefix, "", a, b);
  }

  /** A header carrying another scheme before "Bearer " loses only the "Bearer " part. */
  lemma BearerTokenAfterOtherScheme()
    ensures BearerToken("Token Bearer abc") == "Token abc"
  {
    var front, back := "Token ", "abc";
    FrontHasNoOccurrence(front, back);
    StrReplaceFirstOccurrence(BearerPrefix, "", front, back);
    NoSpaceNoBearer(back);
    assert front + BearerPrefix + back == "Token Bearer abc";
    assert front + "" + back == "Token abc";
  }

  /** An occurrence starts with `B`, so text without a `B` cannot start one. */
  lemma FrontHasNoOccurrence(front: string, back: string)
    requires forall i :: 0 <= i < |front| ==> front[i] != 'B'
    ensures forall i :: 0 <= i < |front| ==> !StartsWith((front + BearerPrefix + back)[i..], BearerPrefix)
  {
    var s := front + BearerPrefix + back;
    forall i | 0 <= i < |front|
      ensures !StartsWith(s[i..], BearerPrefix)
    {
      assert s[i..][..|BearerPrefix|][0] == s[i] == front[i];
    }
  }

  function TokenError(code: int, message: string): Response {
    Response(code, map["token" := Str(message)])
  }

  /** `DecryptJWToken::handle($request, $next)`. */
  function Handle(request: Request, config: JwtConfig, decode: Decoder): (r: Outcome)
    // a missing or falsy header is refused before the library is consulted
    ensures request.authorization.None? || !Truthy(request.authorization.value) ==>
      r == Reply(Response(Unauthorized, map["error" := Str(MissingCredentials)]))
    // otherwise the outcome is decided by decoding the stripped token alone
    ensures request.authorization.Some? && Truthy(request.authorization.value) ==>
      var outcome := decode(BearerToken(request.authorization.value), config.secretKey, Algorithm(config));
      && (r.Next? <==> outcome.Decoded?)
      && (outcome.Decoded? ==>
            r == Next(request.(input := request.input[Claims.AuthUser := Assoc(outcome.claims)])))
      && (outcome.SignatureInvalid? ==> r == Reply(TokenError(InternalServerError, CouldNotVerify)))
      && (outcome.Expired? ==> r == Reply(TokenError(Unauthorized, SessionExpired)))
      && (outcome.BeforeValid? ==> r == Reply(TokenError(Unauthorized, NotYetActive)))
      && (outcome.OtherFailure? ==> r == Reply(TokenError(InternalServerError, ValidationFailed)))
    ensures !r.Throw?
  {
    if request.authorization.None? || !Truthy(request.authorization.value) then
      Reply(Response(Unauthorized, map["error" := Str(MissingCredentials)]))
    else
      var token := BearerToken(request.authorization.value);
      match decode(token, config.secretKey, Algorithm(config))
      case Decoded(claims) =>
        Next(request.(input := request.input[Claims.AuthUser := Assoc(claims)]))
      case SignatureInvalid => Reply(TokenError(InternalServerError, CouldNotVerify))
      case Expired => Reply(TokenError(Unauthorized, SessionExpired))
      case BeforeValid => Reply(TokenError(Unauthorized, NotYetActive))
      case OtherFailure => Reply(TokenError(InternalServerError, ValidationFailed))
  }

  /**
   * A forwarded request differs from the incoming one only in `auth_user`,
   * which holds the decoded claims; a refused one is never forwarded, so no
   * claims are attached to it.
   */
  lemma ForwardChangesOnlyAuthUser(request: Request, config: JwtConfig, decode: Decoder)
    requires Handle(request, config, decode).Next?
    ensures var forwarded := Handle(request, config, decode).request;
      && forwarded.authorization == request.authorization
      && forwarded.input.Keys == request.input.Keys + {Claims.AuthUser}
      && (forall key :: key in request.input && key != Claims.AuthUser ==> forwarded.input[key] == request.input[key])
      && exists claims :: forwarded.input[Claims.AuthUser] == Assoc(claims)
  {
    var forwarded := Handle(request, config, decode).request;
    var outcome := decode(BearerToken(request.authorization.value), config.secretKey, Algorithm(config));
    assert forwarded.input[Claims.AuthUser] == Assoc(outcome.claims);
  }

  /**
   * The response depends on the decoder only through its verdict on the
   * stripped token under the configured secret and algorithm.
   */
  lemma HandleDependsOnDecodedTokenOnly(request: Request, config: JwtConfig, decode: Decoder, other: Decoder)
    requires request.authorization.Some?
    requires var token := BearerToken(request.authorization.value);
      decode(token, config.secretKey, Algorithm(config)) == other(token, config.secretKey, Algorithm(config))
    ensures Handle(request, config, decode) == Handle(request, config, other)
  {
  }

  /** Unless configured otherwise, tokens are verified as HS256. */
  lemma DefaultAlgorithmIsHS256(secretKey: Option<string>)
    ensures Algorithm(JwtConfig(secretKey, None)) == "HS256"
  {
  }
}

=== FILE: authorization.dfy ===
/**
 * The RoleMiddleware: read the user's role through DecryptedJWToken and pass
 * the request on only when that role is one of the roles the route lists.
 */
module Authorization {
  import opened Php
  import opened Http
  import opened Responses
  import opened Claims

  const ForbiddenMessage := "You do not have the authorized role to access this route"

  /** The refusal: `api_response(ForbiddenMessage, null, 403)`. */
  const ForbiddenResponse := Response(Forbidden, map[
    "status" := Str("403 Forbidden"),
    "message" := Str(ForbiddenMessage)])

  /** `(new DecryptedJWToken($request))->getUserRole()`. */
  function UserRole(request: Request, keys: ClaimKeys): Result<Option<string>> {
    match FromRequest(request)
    case Ok(token) => GetUserRole(token, None, keys)
    case Err(e) => Err(e)
  }

  /** `$userRole && in_array($userRole, $roles)`. */
  predicate Permits(role: Option<string>, roles: seq<string>) {
    role.Some? && Truthy(role.value) && role.value in roles
  }

  /** `RoleMiddleware::handle($request, $next, ...$roles)`. */
  function Handle(request: Request, keys: ClaimKeys, roles: seq<string>): (r: Outcome)
    ensures r.Next? <==> UserRole(request, keys).Ok? && Permits(UserRole(request, keys).value, roles)
    ensures r.Next? ==> r.request == request
    ensures r.Reply? ==> r.response == ForbiddenResponse
    ensures r.Throw? <==> UserRole(request, keys).Err?
  {
    match UserRole(request, keys)
    case Err(e) => Throw(e)
    case Ok(role) =>
      if Permits(role, roles) then Next(request)
      else
        ApiResponseWithoutData(ForbiddenMessage, Forbidden);
        StatusLineForbidden();
        match ApiResponse(ForbiddenMessage, Null, Forbidden)
        case Ok(response) => Reply(response)
        case Err(e) => Throw(e)
  }

  /**
   * Whether a stored role claim grants access: the claim as `getUserRole`
   * returns it (an int in decimal, true as "1", false as "") must be truthy
   * and listed.
   */
  predicate ClaimGrants(claim: Value, roles: seq<string>) {
    match claim
    case Str(s) => Truthy(s) && s in roles
    case Int(i) => Truthy(Decimal(i)) && Decimal(i) in roles
    case Bool(b) => b && "1" in roles
    case _ => false
  }

  /**
   * The decision stated over the claims themselves: a request carrying
   * claims is forwarded exactly when the claim under the configured role key
   * grants one of the listed roles.
   */
  lemma ForwardedIffClaimGrants(request: Request, claims: map<string, Value>, keys: ClaimKeys, roles: seq<string>)
    requires AuthUser in request.input && request.input[AuthUser] == Assoc(claims)
    ensures var key := PropKey(None, keys.userRole);
      Handle(request, keys, roles).Next? <==> key in claims && ClaimGrants(claims[key], roles)
  {
    var key := PropKey(None, keys.userRole);
    assert FromRequest(request) == Ok(DecryptedToken(claims));
    if key in claims && claims[key].Bool? && !claims[key].b {
      assert UserRole(request, keys) == Ok(Some(""));
    }
  }

  /** With no roles listed, every request is refused, whatever the role. */
  lemma NoRolesRefusesAll(request: Request, keys: ClaimKeys)
    ensures !Handle(request, keys, []).Next?
  {
  }

  /** A request whose claims carry no role is refused with 403. */
  lemma MissingRoleRefused(request: Request, keys: ClaimKeys, roles: seq<string>)
    requires AuthUser !in request.input || request.input[AuthUser].Null?
    ensures Handle(request, keys, roles) == Reply(ForbiddenResponse)
  {
    assert UserRole(request, keys) == Ok(None);
  }

  /** The falsy roles "" and "0" are refused even when the route lists them. */
  lemma FalsyRoleRefused(request: Request, keys: ClaimKeys, roles: seq<string>)
    requires UserRole(request, keys) == Ok(Some("")) || UserRole(request, keys) == Ok(Some("0"))
    ensures Handle(request, keys, roles) == Reply(ForbiddenResponse)
  {
  }

  /** Roles are compared exactly: "Admin" does not match "admin". */
  lemma RoleComparisonIsCaseSensitive(request: Request)
    requires request.input == map[AuthUser := Assoc(map["role" := Str("Admin")])]
    ensures Handle(request, DefaultClaimKeys, ["admin", "editor"]) == Reply(ForbiddenResponse)
    ensures Handle(request, DefaultClaimKeys, ["Admin"]) == Next(request)
  {
    assert FromRequest(request) == Ok(DecryptedToken(map["role" := Str("Admin")]));
    assert UserRole(request, DefaultClaimKeys) == Ok(Some("Admin"));
    assert "Admin" != "admin";
  }

  /** Only which roles are listed matters, not their order or repetition. */
  lemma RoleListOrderIrrelevant(request: Request, keys: ClaimKeys, roles: seq<string>, others: seq<string>)
    requires (set r | r in roles) == (set r | r in others)
    ensures Handle(request, keys, roles) == Handle(request, keys, others)
  {
    var role := UserRole(request, keys);
    if role.Ok? && role.value.Some? {
      var s := role.value.value;
      var listed, otherwise := set r | r in roles, set r | r in others;
      assert s in roles ==> s in listed;
      assert s in others ==> s in otherwise;
      assert s in roles <==> s in others;
    }
  }
}

=== FILE: claims.dfy ===
/**
 * The DecryptedJWToken service: a reader over the claims the authentication
 * middleware put on the request under `auth_user`. Each getter looks a claim
 * up under an explicit key or, failing that, the key named in configuration.
 */
module Claims {
  import opened Php
  import opened Http

  /** The request input key under which the decoded claims are stored. */
  const AuthUser := "auth_user"

  /**
   * The configured claim names (`user_id_prop`, `user_name_prop`,
   * `user_role_prop`, `user_roles_prop`, `token_expiry_prop`); an entry
   * missing from configuration reads as null.
   */
  datatype ClaimKeys = ClaimKeys(
    userId: Option<string>,
    userName: Option<string>,
    userRole: Option<string>,
    userRoles: Option<string>,
    tokenExpiry: Option<string>)

  /** The names the package's configuration file ships with. */
  const DefaultClaimKeys := ClaimKeys(Some("sub"), Some("name"), Some("role"), Some("roles"), Some("exp"))

  datatype DecryptedToken = DecryptedToken(data: map<string, Value>)

  /**
   * `new DecryptedJWToken($request)`: `$request->auth_user ?? []` stored in a
   * property typed `array`, so a value that is not an array is a TypeError.
   */
  function FromRequest(request: Request): (r: Result<DecryptedToken>)
    ensures r.Ok? <==> AuthUser !in request.input || request.input[AuthUser].Null? || IsArray(request.input[AuthUser])
    ensures AuthUser !in request.input || request.input[AuthUser].Null? ==> r == Ok(DecryptedToken(map[]))
    ensures AuthUser in request.input && request.input[AuthUser].Assoc? ==>
      r == Ok(DecryptedToken(request.input[AuthUser].entries))
    ensures AuthUser in request.input && request.input[AuthUser].Arr? ==>
      r == Ok(DecryptedToken(IndexMap(request.input[AuthUser].items)))
    ensures AuthUser in request.input && !request.input[AuthUser].Null? && !IsArray(request.input[AuthUser]) ==>
      r == Err(TypeError)
  {
    match Coalesce(request.input, AuthUser, Null)
    case Null => Ok(DecryptedToken(map[]))
    case Assoc(entries) => Ok(DecryptedToken(entries))
    case Arr(items) => Ok(DecryptedToken(IndexMap(items)))
    case _ => Err(TypeError)
  }

  /** `getData()`: the stored claims (the typed property is never null). */
  function GetData(token: DecryptedToken): map<string, Value> {
    token.data
  }

  /**
   * The claims a reader hands back are the ones the authentication
   * middleware stored on the request, unchanged; with none stored, `[]`.
   */
  lemma GetDataReturnsStoredClaims(request: Request)
    requires AuthUser !in request.input || request.input[AuthUser].Null? || request.input[AuthUser].Assoc?
    ensures FromRequest(request).Ok?
    ensures GetData(FromRequest(request).value)
         == if AuthUser in request.input && request.input[AuthUser].Assoc? then request.input[AuthUser].entries else map[]
  {
  }

  /**
   * `$prop ?: Config::get(...)`: an explicit key is used only when it is
   * truthy, so "" and "0" fall back to the configured one; a missing
   * configuration entry is null, which PHP reads as the array key "".
   */
  function PropKey(prop: Option<string>, configured: Option<string>): string {
    if prop.Some? && Truthy(prop.value) then prop.value else configured.GetOr("")
  }

  /** `$this->getData()[$prop] ?? null`. */
  function Claim(token: DecryptedToken, key: string): Value {
    Coalesce(GetData(token), key, Null)
  }

  /** `getUserId($prop)`, declared `int|string|null`. */
  function GetUserId(token: DecryptedToken, prop: Option<string>, keys: ClaimKeys): (r: Result<Value>)
    ensures r.Err? ==> r.error == TypeError
    ensures var key := PropKey(prop, keys.userId);
      && (key !in token.data || token.data[key].Null? ==> r == Ok(Null))
      && (key in token.data && (token.data[key].Int? || token.data[key].Str?) ==> r == Ok(token.data[key]))
      && (key in token.data && token.data[key].Bool? ==> r == Ok(Int(if token.data[key].b then 1 else 0)))
      && (r.Err? <==> key in token.data && !token.data[key].Null? && !IsScalar(token.data[key]))
  {
    AsNullableIntOrString(Claim(token, PropKey(prop, keys.userId)))
  }

  /** `getUserName($prop)`, declared `?string`. */
  function GetUserName(token: DecryptedToken, prop: Option<string>, keys: ClaimKeys): (r: Result<Option<string>>)
    ensures r.Err? ==> r.error == TypeError
    ensures var key := PropKey(prop, keys.userName);
      && (key !in token.data || token.data[key].Null? ==> r == Ok(None))
      && (key in token.data && token.data[key].Bool? ==> r == Ok(Some(if token.data[key].b then "1" else "")))
      && (key in token.data && token.data[key].Str? ==> r == Ok(Some(token.data[key].s)))
      && (key in token.data && token.data[key].Int? ==> r == Ok(Some(Decimal(token.data[key].i))))
      && (r.Err? <==> key in token.data && !token.data[key].Null? && !IsScalar(token.data[key]))
  {
    AsNullableString(Claim(token, PropKey(prop, keys.userName)))
  }

  /** `getUserRole($prop)`, declared `?string`. */
  function GetUserRole(token: DecryptedToken, prop: Option<string>, keys: ClaimKeys): (r: Result<Option<string>>)
    ensures r.Err? ==> r.error == TypeError
    ensures var key := PropKey(prop, keys.userRole);
      && (key !in token.data || token.data[key].Null? ==> r == Ok(None))
      && (key in token.data && token.data[key].Bool? ==> r == Ok(Some(if token.data[key].b then "1" else "")))
      && (key in token.data && token.data[key].Str? ==> r == Ok(Some(token.data[key].s)))
      && (key in token.data && token.data[key].Int? ==> r == Ok(Some(Decimal(token.data[key].i))))
      && (r.Err? <==> key in token.data && !token.data[key].Null? && !IsScalar(token.data[key]))
  {
    AsNullableString(Claim(token, PropKey(prop, keys.userRole)))
  }

  /** `getUserRoles($prop)`, declared `?array`; an absent claim gives `[]`, never null. */
  function GetUserRoles(token: DecryptedToken, prop: Option<string>, keys: ClaimKeys): (r: Result<Value>)
    ensures r.Err? ==> r.error == TypeError
    ensures var key := PropKey(prop, keys.userRoles);
      && (key !in token.data || token.data[key].Null? ==> r == Ok(Arr([])))
      && (key in token.data && IsArray(token.data[key]) ==> r == Ok(token.data[key]))
      && (r.Err? <==> key in token.data && !token.data[key].Null? && !IsArray(token.data[key]))
  {
    AsNullableArray(Coalesce(GetData(token), PropKey(prop, keys.userRoles), Arr([])))
  }

  /** `getTokenExpiryTime($prop)`, declared `?int`. */
  function GetTokenExpiryTime(token: DecryptedToken, prop: Option<string>, keys: ClaimKeys): (r: Result<Option<int>>)
    ensures var key := PropKey(prop, keys.tokenExpiry);
      && (key !in token.data || token.data[key].Null? ==> r == Ok(None))
      && (key in token.data && token.data[key].Int? ==> r == Ok(Some(token.data[key].i)))
      && (key in token.data && token.data[key].Str? ==> (r.Ok? <==> ParseInt(token.data[key].s).Some?))
      && (key in token.data && token.data[key].Str? && r.Ok? ==> r == Ok(ParseInt(token.data[key].s)))
      && (key in token.data && token.data[key].Bool? ==> r == Ok(Some(if token.data[key].b then 1 else 0)))
      && (key in token.data && !token.data[key].Null? && !IsScalar(token.data[key]) ==> r == Err(TypeError))
  {
    AsNullableInt(Claim(token, PropKey(prop, keys.tokenExpiry)))
  }

  /** Without `auth_user` on the request, every getter gives its default. */
  lemma NoClaimsGiveDefaults(request: Request, prop: Option<string>, keys: ClaimKeys)
    requires AuthUser !in request.input
    ensures FromRequest(request).Ok?
    ensures var token := FromRequest(request).value;
      && GetData(token) == map[]
      && GetUserId(token, prop, keys) == Ok(Null)
      && GetUserName(token, prop, keys) == Ok(None)
      && GetUserRole(token, prop, keys) == Ok(None)
      && GetUserRoles(token, prop, keys) == Ok(Arr([]))
      && GetTokenExpiryTime(token, prop, keys) == Ok(None)
  {
  }

  /**
   * An explicit, truthy key behaves exactly as if configuration had named
   * it: it takes precedence over the configured key for every getter.
   */
  lemma ExplicitPropOverridesConfig(token: DecryptedToken, prop: string, keys: ClaimKeys)
    requires Truthy(prop)
    ensures GetUserId(token, Some(prop), keys) == GetUserId(token, None, keys.(userId := Some(prop)))
    ensures GetUserName(token, Some(prop), keys) == GetUserName(token, None, keys.(userName := Some(prop)))
    ensures GetUserRole(token, Some(prop), keys) == GetUserRole(token, None, keys.(userRole := Some(prop)))
    ensures GetUserRoles(token, Some(prop), keys) == GetUserRoles(token, None, keys.(userRoles := Some(prop)))
    ensures GetTokenExpiryTime(token, Some(prop), keys)
         == GetTokenExpiryTime(token, None, keys.(tokenExpiry := Some(prop)))
  {
  }

  /** The falsy keys "" and "0" are ignored in favour of the configured key. */
  lemma FalsyPropFallsBack(token: DecryptedToken, prop: string, keys: ClaimKeys)
    requires prop == "" || prop == "0"
    ensures GetUserId(token, Some(prop), keys) == GetUserId(token, None, keys)
    ensures GetUserName(token, Some(prop), keys) == GetUserName(token, None, keys)
    ensures GetUserRole(token, Some(prop), keys) == GetUserRole(token, None, keys)
    ensures GetUserRoles(token, Some(prop), keys) == GetUserRoles(token, None, keys)
    ensures GetTokenExpiryTime(token, Some(prop), keys) == GetTokenExpiryTime(token, None, keys)
  {
  }

  /** With the shipped configuration, the role is read from the `role` claim. */
  lemma DefaultRoleClaim(token: DecryptedToken, role: string)
    requires "role" in token.data && token.data["role"] == Str(role)
    ensures GetUserRole(token, None, DefaultClaimKeys) == Ok(Some(role))
  {
  }
}

=== FILE: errors.dfy ===
/**
 * The HandlesErrors trait: run a callback and turn anything it throws into an
 * `api_response` carrying the thrown message.
 */
module Errors {
  import opened Php
  import opened Http
  import opened Responses

  /**
   * A thrown exception or error: its message and, when its class has a
   * `getStatusCode` method (Symfony's HttpException does), that status code.
   */
  datatype Throwable = Throwable(message: string, statusCode: Option<int>)

  /** How the callback ended: it returned a value or it threw. */
  datatype Completion<+T> = Returned(value: T) | Threw(thrown: Throwable)

  /**
   * What `handleErrors` gives back: the callback's own value, an error
   * response, or an exception escaping from building that response.
   */
  datatype Handled<+T> = Passed(value: T) | Responded(response: Response) | Escaped(error: Error)

  const DefaultErrorMessage := "Something went wrong"

  /** The status an error response is sent with. */
  function ErrorStatus(t: Throwable): int {
    t.statusCode.GetOr(InternalServerError)
  }

  /**
   * `handleErrors($callback, $errorMessage)`. The catch list covers every
   * Throwable, so any throw is answered; only a status code that Symfony
   * refuses makes the response constructor itself throw.
   */
  function HandleErrors<T>(outcome: Completion<T>, errorMessage: Option<string>): (r: Handled<T>)
    ensures outcome.Returned? ==> r == Passed(outcome.value)
    ensures outcome.Threw? ==> !r.Passed?
    ensures outcome.Threw? ==> (r.Responded? <==> ValidStatus(ErrorStatus(outcome.thrown)))
    ensures outcome.Threw? && !ValidStatus(ErrorStatus(outcome.thrown)) ==>
      r == Escaped(InvalidStatusCode(ErrorStatus(outcome.thrown)))
    ensures r.Responded? ==> r.response.status == ErrorStatus(outcome.thrown)
    ensures r.Responded? ==> r.response.body == map[
      "status" := Str(StatusLine(r.response.status)),
      "message" := Str(errorMessage.GetOr(DefaultErrorMessage)),
      "error" := Str(outcome.thrown.message)]
  {
    match outcome
    case Returned(v) => Passed(v)
    case Threw(t) =>
      var message := errorMessage.GetOr(DefaultErrorMessage);
      var entries := map["error" := Str(t.message)];
      assert DataEntries(Assoc(entries)) == Ok(entries);
      match ApiResponse(message, Assoc(entries), ErrorStatus(t))
      case Ok(response) =>
        assert response.body.Keys == {"status", "message", "error"};
        Responded(response)
      case Err(e) => Escaped(e)
  }

  /**
   * A thrown exception without its own status code is answered with 500 and
   * the default message when the caller gave none; an explicit empty message
   * is kept, since `??` only replaces null.
   */
  lemma HandleErrorsDefaults(message: string, errorMessage: Option<string>)
    ensures var r := HandleErrors<int>(Threw(Throwable(message, None)), errorMessage);
      && r.Responded?
      && r.response.status == 500
      && r.response.body["error"] == Str(message)
      && r.response.body["message"] == Str(if errorMessage.Some? then errorMessage.value else DefaultErrorMessage)
  {
  }

  /** A status code outside the reason table is still answered, with "Unknown status". */
  lemma HandleErrorsUnknownStatus(message: string)
    ensures var r := HandleErrors<int>(Threw(Throwable(message, Some(499))), None);
      && r.Responded?
      && r.response.status == 499
      && r.response.body["status"] == Str("499 Unknown status")
  {
    StatusLineUnknown();
  }
}

=== FILE: http.dfy ===
/**
 * The HTTP objects the middlewares and traits exchange, reduced to the parts
 * they read or write.
 */
module Http {
  import opened Php

  /**
   * An inbound request: the Authorization header (absent or a string) and the
   * merged request input, where `$request->merge([...])` adds keys and
   * `$request->key` reads them.
   */
  datatype Request = Request(authorization: Option<string>, input: map<string, Value>)

  /** A JSON response: the HTTP status code and the top-level JSON object. */
  datatype Response = Response(status: int, body: map<string, Value>)

  /**
   * What a middleware's `handle` does with a request: hand it to `$next`
   * (exactly once), answer it with its own response, or let an exception escape.
   */
  datatype Outcome = Next(request: Request) | Reply(response: Response) | Throw(error: Error)

  const Unauthorized := 401
  const Forbidden := 403
  const InternalServerError := 500

  /** Symfony's Response refuses a status code outside this range with an exception. */
  predicate ValidStatus(code: int) {
    100 <= code < 600
  }

  /** `new JsonResponse($body, $code)`. */
  function JsonResponse(body: map<string, Value>, code: int): (r: Result<Response>)
    ensures r.Ok? <==> ValidStatus(code)
    ensures r.Ok? ==> r.value.status == code && r.value.body == body
    ensures !r.Ok? ==> r.error == InvalidStatusCode(code)
  {
    if ValidStatus(code) then Ok(Response(code, body)) else Err(InvalidStatusCode(code))
  }
}

=== FILE: pagination.dfy ===
/**
 * The PaginationRules trait: the validation rules for pagination parameters,
 * merged with a resource's own rules, and the filter that keeps only the
 * validated fields those rules allow.
 */
module Pagination {
  import opened Php

  /**
   * A validation rule: a fixed Laravel rule string, or the closure that
   * `buildDynamicRules` wraps around a base rule (it validates each element
   * of an array value, or the value itself, against that base rule).
   */
  datatype Rule = Fixed(text: string) | PerItem(base: Value)

  const DefaultRules: map<string, Rule> := map[
    "sort" := Fixed("nullable|string"),
    "per_page" := Fixed("nullable|integer|min:1|max:100"),
    "page" := Fixed("nullable|integer|min:1"),
    "cursor" := Fixed("nullable|string")
  ]

  /** `buildDynamicRules($baseRules)`: one closure per field, capturing that field's rule. */
  function BuildDynamicRules(baseRules: map<string, Value>): (r: map<string, Rule>)
    ensures r.Keys == baseRules.Keys
    ensures forall field :: field in r ==> r[field] == PerItem(baseRules[field])
  {
    map field | field in baseRules :: PerItem(baseRules[field])
  }

  /**
   * `paginationRules($baseRules)`: `array_merge` of the defaults and the
   * dynamic rules, so a base rule named like a default replaces it.
   */
  function PaginationRules(baseRules: map<string, Value>): (r: map<string, Rule>)
    ensures r.Keys == DefaultRules.Keys + baseRules.Keys
    ensures forall field :: field in baseRules ==> r[field] == PerItem(baseRules[field])
    ensures forall field :: field in DefaultRules && field !in baseRules ==> r[field] == DefaultRules[field]
  {
    DefaultRules + BuildDynamicRules(baseRules)
  }

  /** The four pagination parameters always have a rule. */
  lemma PaginationRulesHasDefaults(baseRules: map<string, Value>)
    ensures var r := PaginationRules(baseRules);
      "sort" in r && "per_page" in r && "page" in r && "cursor" in r
  {
  }

  /**
   * `validatedFields($validatedData, $rules)`: the entries of the data whose
   * key has a rule, with their values unchanged.
   */
  function ValidatedFields<V, R>(validatedData: map<string, V>, rules: map<string, R>): (r: map<string, V>)
    ensures r.Keys == validatedData.Keys * rules.Keys
    ensures forall key :: key in r ==> r[key] == validatedData[key]
  {
    map key | key in validatedData && key in rules :: validatedData[key]
  }

  /** Filtering twice by the same rules is filtering once. */
  lemma ValidatedFieldsIdempotent<V, R>(validatedData: map<string, V>, rules: map<string, R>)
    ensures ValidatedFields(ValidatedFields(validatedData, rules), rules) == ValidatedFields(validatedData, rules)
  {
  }

  lemma ValidatedFieldsNoRules<V, R>(validatedData: map<string, V>, rules: map<string, R>)
    requires rules == map[]
    ensures ValidatedFields(validatedData, rules) == map[]
  {
    assert ValidatedFields(validatedData, rules).Keys == {};
  }

  /**
   * The filter only looks at which fields have rules, not at the rules
   * themselves: any two rule sets over the same fields keep the same data.
   */
  lemma ValidatedFieldsDependsOnKeysOnly<V, R, S>(validatedData: map<string, V>, rules: map<string, R>, others: map<string, S>)
    requires rules.Keys == others.Keys
    ensures ValidatedFields(validatedData, rules) == ValidatedFields(validatedData, others)
  {
  }

  /**
   * Filtering by the pagination rules keeps every pagination parameter and
   * every field of the resource's own rules, and nothing else.
   */
  lemma ValidatedPaginationFields(validatedData: map<string, Value>, baseRules: map<string, Value>)
    ensures var kept := ValidatedFields(validatedData, PaginationRules(baseRules));
      forall key :: key in kept <==> key in validatedData && (key in DefaultRules || key in baseRules)
  {
  }
}

=== FILE: php.dfy ===
/**
 * The slice of PHP's runtime semantics the package relies on: dynamically
 * typed values, the truthiness of strings, integer-to-string conversion and
 * back, `str_replace`, and the coercions PHP applies (without strict_types)
 * to a value returned from a function with a declared return type.
 */
module Php {

  datatype Option<+T> = None | Some(value: T) {
    /** `$x ?? $default` for a value that is either absent or present. */
    function GetOr(default: T): T {
      match this
      case Some(v) => v
      case None => default
    }
  }

  /** The exceptions that the modelled code lets escape to its caller. */
  datatype Error =
    | TypeError                     // a value that a declared type refuses
    | InvalidStatusCode(code: int)  // Symfony refuses HTTP codes outside 100..599

  datatype Result<+T> = Ok(value: T) | Err(error: Error)

  /** A PHP value as it appears in request input, decoded claims and JSON bodies. */
  datatype Value =
    | Null
    | Bool(b: bool)
    | Int(i: int)
    | Str(s: string)
    | Arr(items: seq<Value>)              // a list-shaped PHP array
    | Assoc(entries: map<string, Value>)  // a string-keyed PHP array
    | Obj(fields: map<string, Value>)     // a stdClass object produced by json_decode

  /** `is_array`: both list-shaped and string-keyed arrays, never objects. */
  predicate IsArray(v: Value) {
    v.Arr? || v.Assoc?
  }

  predicate IsScalar(v: Value) {
    v.Bool? || v.Int? || v.Str?
  }

  /** PHP's conversion of a string to bool: exactly "" and "0" are false. */
  predicate Truthy(s: string) {
    s != "" && s != "0"
  }

  /** `$m[$key] ?? $default`: an absent key and a stored null both give the default. */
  function Coalesce(m: map<string, Value>, key: string, default: Value): (v: Value)
    ensures key in m && m[key] != Null ==> v == m[key]
    ensures key !in m || m[key] == Null ==> v == default
  {
    if key in m && m[key] != Null then m[key] else default
  }

  // ---------------------------------------------------------------------------
  // Integers as decimal strings

  predicate IsDigit(c: char) {
    '0' <= c <= '9'
  }

  predicate AllDigits(s: string) {
    forall i :: 0 <= i < |s| ==> IsDigit(s[i])
  }

  function DigitChar(d: nat): (c: char)
    requires d < 10
    ensures IsDigit(c)
  {
    ('0' as int + d) as char
  }

  function DigitValue(c: char): nat
    requires IsDigit(c)
  {
    c as int - '0' as int
  }

  /** The decimal digits of a natural number, most significant first, no leading zero. */
  function NatDigits(n: nat): (s: string)
    ensures |s| > 0 && AllDigits(s)
    ensures |s| > 1 ==> s[0] != '0'
    decreases n
  {
    if n < 10 then [DigitChar(n)] else NatDigits(n / 10) + [DigitChar(n % 10)]
  }

  /** PHP's conversion of an int to a string. */
  function Decimal(i: int): string {
    if i < 0 then "-" + NatDigits(-i) else NatDigits(i)
  }

  /** The number a non-empty string of digits denotes. */
  function DigitsValue(s: string): nat
    requires AllDigits(s)
    decreases |s|
  {
    if |s| == 0 then 0 else DigitsValue(s[..|s| - 1]) * 10 + DigitValue(s[|s| - 1])
  }

  /**
   * The integer an integer-numeric string denotes: an optional sign followed
   * by one or more digits. Any other string is not read as an integer.
   */
  function ParseInt(s: string): Option<int> {
    if |s| > 0 && (s[0] == '-' || s[0] == '+') then
      var digits := s[1..];
      if |digits| > 0 && AllDigits(digits) then
        var n: int := DigitsValue(digits);
        Some(if s[0] == '-' then -n else n)
      else None
    else if |s| > 0 && AllDigits(s) then Some(DigitsValue(s))
    else None
  }

  lemma {:induction false} NatDigitsRoundTrip(n: nat)
    ensures DigitsValue(NatDigits(n)) == n
    decreases n
  {
    if n >= 10 {
      var prefix := NatDigits(n / 10);
      var s := prefix + [DigitChar(n % 10)];
      assert s[..|s| - 1] == prefix;
      NatDigitsRoundTrip(n / 10);
    }
  }

  /** Converting an int to a string and reading it back gives the int. */
  lemma DecimalRoundTrip(i: int)
    ensures ParseInt(Decimal(i)) == Some(i)
  {
    if i < 0 {
      NatDigitsRoundTrip(-i);
      assert Decimal(i)[1..] == NatDigits(-i);
    } else {
      NatDigitsRoundTrip(i);
    }
  }

  /** A decimal string starts with a digit or a minus sign, never a letter. */
  lemma DecimalStartsWithDigitOrSign(i: int)
    ensures |Decimal(i)| > 0 && (IsDigit(Decimal(i)[0]) || Decimal(i)[0] == '-')
  {
  }

  lemma DecimalInjective(i: int, j: int)
    ensures Decimal(i) == Decimal(j) ==> i == j
  {
    DecimalRoundTrip(i);
    DecimalRoundTrip(j);
  }

  lemma DecimalDistinctBelow(n: nat)
    ensures forall i :: 0 <= i < n ==> Decimal(i) != Decimal(n)
  {
    forall i | 0 <= i < n
      ensures Decimal(i) != Decimal(n)
    {
      DecimalInjective(i, n);
    }
  }

  /**
   * A list read as a PHP array: element `i` sits under the key "i", because
   * PHP treats the key string "i" and the integer key i as the same key.
   */
  function IndexMap(items: seq<Value>): (m: map<string, Value>)
    ensures forall i :: 0 <= i < |items| ==> Decimal(i) in m && m[Decimal(i)] == items[i]
    decreases |items|
  {
    if |items| == 0 then map[]
    else
      var n := |items| - 1;
      var front := IndexMap(items[..n]);
      DecimalDistinctBelow(n);
      front[Decimal(n) := items[n]]
  }

  /** The positions are the only keys. */
  lemma {:induction false} IndexMapKeys(items: seq<Value>)
    ensures forall k :: k in IndexMap(items) ==> exists i :: 0 <= i < |items| && k == Decimal(i)
    decreases |items|
  {
    if |items| > 0 {
      var n := |items| - 1;
      IndexMapKeys(items[..n]);
      forall k | k in IndexMap(items)
        ensures exists i :: 0 <= i < |items| && k == Decimal(i)
      {
        if k != Decimal(n) {
          assert k in IndexMap(items[..n]);
        }
      }
    }
  }

  // ---------------------------------------------------------------------------
  // str_replace

  predicate StartsWith(s: string, prefix: string) {
    |prefix| <= |s| && s[..|prefix|] == prefix
  }

  /** `str_contains`: `pat` occurs somewhere in `s`. */
  predicate Contains(s: string, pat: string)
    decreases |s|
  {
    StartsWith(s, pat) || (|s| > 0 && Contains(s[1..], pat))
  }

  /**
   * `str_replace(search, replace, subject)`: scanning left to right, every
   * non-overlapping occurrence of `search` is replaced; an empty `search`
   * leaves the subject unchanged.
   */
  function StrReplace(search: string, replace: string, subject: string): (r: string)
    ensures search == "" || !Contains(subject, search) ==> r == subject
    ensures |replace| <= |search| ==> |r| <= |subject|
    // a shorter replacement strictly shortens any subject holding an occurrence
    ensures search != "" && Contains(subject, search) && |replace| < |search| ==> |r| < |subject|
    decreases |subject|
  {
    if search == "" || |subject| == 0 then subject
    else if StartsWith(subject, search) then
      replace + StrReplace(search, replace, subject[|search|..])
    else
      var rest := StrReplace(search, replace, subject[1..]);
      assert !Contains(subject, search) ==> [subject[0]] + subject[1..] == subject;
      [subject[0]] + rest
  }

  /** An occurrence at the front is replaced, and the scan resumes after it. */
  lemma StrReplaceLeading(search: string, replace: string, rest: string)
    requires search != ""
    ensures StrReplace(search, replace, search + rest) == replace + StrReplace(search, replace, rest)
  {
    assert (search + rest)[..|search|] == search;
    assert (search + rest)[|search|..] == rest;
  }

  /**
   * The first occurrence is replaced wherever it sits: the text before it is
   * kept as it is, and the scan resumes after it.
   */
  lemma {:induction false} StrReplaceFirstOccurrence(search: string, replace: string, a: string, b: string)
    requires search != ""
    requires forall i :: 0 <= i < |a| ==> !StartsWith((a + search + b)[i..], search)
    ensures StrReplace(search, replace, a + search + b) == a + replace + StrReplace(search, replace, b)
    decreases |a|
  {
    var s := a + search + b;
    if |a| == 0 {
      assert s == search + b;
      StrReplaceLeading(search, replace, b);
    } else {
      assert s[0..] == s;
      assert s[1..] == a[1..] + search + b;
      forall i | 0 <= i < |a[1..]|
        ensures !StartsWith((a[1..] + search + b)[i..], search)
      {
        assert (a[1..] + search + b)[i..] == s[i + 1..];
      }
      StrReplaceFirstOccurrence(search, replace, a[1..], b);
      assert [a[0]] + a[1..] == a;
    }
  }

  // ---------------------------------------------------------------------------
  // Return-type coercion (coercive typing mode)

  /** A value returned from a function declared `?string`. */
  function AsNullableString(v: Value): (r: Result<Option<string>>)
    ensures r.Err? ==> r.error == TypeError
    ensures r.Ok? <==> v.Null? || IsScalar(v)
    ensures v.Null? ==> r == Ok(None)
    ensures v.Str? ==> r == Ok(Some(v.s))
    ensures v.Int? ==> r == Ok(Some(Decimal(v.i))) && ParseInt(r.value.value) == Some(v.i)
    ensures v.Bool? ==> r == Ok(Some(if v.b then "1" else "")) && Truthy(r.value.value) == v.b
  {
    match v
    case Null => Ok(None)
    case Str(s) => Ok(Some(s))
    case Int(i) => DecimalRoundTrip(i); Ok(Some(Decimal(i)))
    case Bool(b) => Ok(Some(if b then "1" else ""))
    case _ => Err(TypeError)
  }

  /** A value returned from a function declared `int|string|null`; a bool becomes an int. */
  function AsNullableIntOrString(v: Value): (r: Result<Value>)
    ensures r.Err? ==> r.error == TypeError
    ensures r.Ok? <==> v.Null? || IsScalar(v)
    ensures r.Ok? ==> r.value.Null? || r.value.Int? || r.value.Str?
    ensures v.Null? || v.Int? || v.Str? ==> r == Ok(v)
    ensures v.Bool? ==> r == Ok(Int(if v.b then 1 else 0))
  {
    match v
    case Null => Ok(v)
    case Int(_) => Ok(v)
    case Str(_) => Ok(v)
    case Bool(b) => Ok(Int(if b then 1 else 0))
    case _ => Err(TypeError)
  }

  /** A value returned from a function declared `?array`: objects and scalars are refused. */
  function AsNullableArray(v: Value): (r: Result<Value>)
    ensures r.Err? ==> r.error == TypeError
    ensures r.Ok? <==> v.Null? || IsArray(v)
    ensures r.Ok? ==> r.value == v
  {
    if v.Null? || IsArray(v) then Ok(v) else Err(TypeError)
  }

  /** A value returned from a function declared `?int`: integer-numeric strings are read. */
  function AsNullableInt(v: Value): (r: Result<Option<int>>)
    ensures v.Null? ==> r == Ok(None)
    ensures v.Int? ==> r == Ok(Some(v.i))
    ensures v.Bool? ==> r == Ok(Some(if v.b then 1 else 0))
    ensures v.Str? ==> (r.Ok? <==> ParseInt(v.s).Some?)
    ensures v.Str? && r.Ok? ==> r == Ok(ParseInt(v.s))
    ensures !v.Null? && !IsScalar(v) ==> r == Err(TypeError)
  {
    match v
    case Null => Ok(None)
    case Int(i) => Ok(Some(i))
    case Bool(b) => Ok(Some(if b then 1 else 0))
    case Str(s) => if ParseInt(s).Some? then Ok(ParseInt(s)) else Err(TypeError)
    case _ => Err(TypeError)
  }
}

=== FILE: pipeline.dfy ===
/**
 * The two middlewares as a route uses them: DecryptJWToken first, then
 * RoleMiddleware on the request it forwards.
 */
module Pipeline {
  import opened Php
  import opened Http
  import Claims
  import Authentication
  import Authorization

  /** A protected route: DecryptJWToken runs first, and RoleMiddleware sees what it forwards. */
  function Protect(request: Request, config: Authentication.JwtConfig, decode: Authentication.Decoder,
                   keys: Claims.ClaimKeys, roles: seq<string>): (r: Outcome)
    // a refusal by the token middleware is final: the role is never read
    ensures Authentication.Handle(request, config, decode).Reply? ==> r == Authentication.Handle(request, config, decode)
    // a request that gets through is the authenticated one, unchanged by the role check
    ensures r.Next? ==> r == Authentication.Handle(request, config, decode)
    // every refusal is one of the three statuses the two middlewares use
    ensures r.Reply? ==> r.response.status in {Unauthorized, Forbidden, InternalServerError}
    // only the claim reader's type check can throw
    ensures r.Throw? ==> r.error == TypeError
  {
    match Authentication.Handle(request, config, decode)
    case Next(authenticated) => Authorization.Handle(authenticated, keys, roles)
    case other => other
  }

  /**
   * A request gets through both middlewares exactly when the token decodes
   * and its own role claim grants a listed role; whatever `auth_user` the
   * client sent is replaced by the decoded claims before the role is read.
   */
  lemma ProtectedIffTokenGrantsRole(request: Request, config: Authentication.JwtConfig, decode: Authentication.Decoder,
                                    keys: Claims.ClaimKeys, roles: seq<string>)
    ensures var key := Claims.PropKey(None, keys.userRole);
      Protect(request, config, decode, keys, roles).Next? <==>
        && request.authorization.Some?
        && Truthy(request.authorization.value)
        && var outcome := decode(Authentication.BearerToken(request.authorization.value), config.secretKey,
                                 Authentication.Algorithm(config));
           && outcome.Decoded?
           && key in outcome.claims
           && Authorization.ClaimGrants(outcome.claims[key], roles)
    ensures Protect(request, config, decode, keys, roles).Next? ==>
      var forwarded := Protect(request, config, decode, keys, roles).request;
      var outcome := decode(Authentication.BearerToken(request.authorization.value), config.secretKey,
                            Authentication.Algorithm(config));
      forwarded.input[Claims.AuthUser] == Assoc(outcome.claims)
  {
    var first := Authentication.Handle(request, config, decode);
    if first.Next? {
      var outcome := decode(Authentication.BearerToken(request.authorization.value), config.secretKey,
                            Authentication.Algorithm(config));
      Authorization.ForwardedIffClaimGrants(first.request, outcome.claims, keys, roles);
    }
  }

  /**
   * Run on its own, the role middleware trusts an `auth_user` the client
   * put in the request input; behind the token middleware the same request
   * is refused for lack of credentials.
   */
  lemma RoleCheckNeedsTokenCheckFirst(config: Authentication.JwtConfig, decode: Authentication.Decoder)
    ensures var forged := Request(None, map[Claims.AuthUser := Assoc(map["role" := Str("admin")])]);
      && Authorization.Handle(forged, Claims.DefaultClaimKeys, ["admin"]) == Next(forged)
      && Protect(forged, config, decode, Claims.DefaultClaimKeys, ["admin"]).Reply?
      && Protect(forged, config, decode, Claims.DefaultClaimKeys, ["admin"]).response.status == Unauthorized
  {
    var forged := Request(None, map[Claims.AuthUser := Assoc(map["role" := Str("admin")])]);
    assert Claims.FromRequest(forged) == Ok(Claims.DecryptedToken(map["role" := Str("admin")]));
    assert Authorization.UserRole(forged, Claims.DefaultClaimKeys) == Ok(Some("admin"));
  }
}

=== FILE: responses.dfy ===
/**
 * The ApiResponse trait: the `{status, message, ...data}` JSON envelope and
 * the split of a paginated payload into its items and its pagination metadata.
 */
module Responses {
  import opened Php
  import opened Http

  /**
   * The reason phrase of Symfony's `Response::$statusTexts` for a code, when
   * the table has one (wording as of Symfony 7; older releases word 413 and
   * 422 differently).
   */
  function StatusText(code: int): Option<string> {
    match code
    case 100 => Some("Continue")
    case 101 => Some("Switching Protocols")
    case 102 => Some("Processing")
    case 103 => Some("Early Hints")
    case 200 => Some("OK")
    case 201 => Some("Created")
    case 202 => Some("Accepted")
    case 203 => Some("Non-Authoritative Information")
    case 204 => Some("No Content")
    case 205 => Some("Reset Content")
    case 206 => Some("Partial Content")
    case 207 => Some("Multi-Status")
    case 208 => Some("Already Reported")
    case 226 => Some("IM Used")
    case 300 => Some("Multiple Choices")
    case 301 => Some("Moved Permanently")
    case 302 => Some("Found")
    case 303 => Some("See Other")
    case 304 => Some("Not Modified")
    case 305 => Some("Use Proxy")
    case 307 => Some("Temporary Redirect")
    case 308 => Some("Permanent Redirect")
    case 400 => Some("Bad Request")
    case 401 => Some("Unauthorized")
    case 402 => Some("Payment Required")
    case 403 => Some("Forbidden")
    case 404 => Some("Not Found")
    case 405 => Some("Method Not Allowed")
    case 406 => Some("Not Acceptable")
    case 407 => Some("Proxy Authentication Required")
    case 408 => Some("Request Timeout")
    case 409 => Some("Conflict")
    case 410 => Some("Gone")
    case 411 => Some("Length Required")
    case 412 => Some("Precondition Failed")
    case 413 => Some("Content Too Large")
    case 414 => Some("URI Too Long")
    case 415 => Some("Unsupported Media Type")
    case 416 => Some("Range Not Satisfiable")
    case 417 => Some("Expectation Failed")
    case 418 => Some("I'm a teapot")
    case 421 => Some("Misdirected Request")
    case 422 => Some("Unprocessable Content")
    case 423 => Some("Locked")
    case 424 => Some("Failed Dependency")
    case 425 => Some("Too Early")
    case 426 => Some("Upgrade Required")
    case 428 => Some("Precondition Required")
    case 429 => Some("Too Many Requests")
    case 431 => Some("Request Header Fields Too Large")
    case 451 => Some("Unavailable For Legal Reasons")
    case 500 => Some("Internal Server Error")
    case 501 => Some("Not Implemented")
    case 502 => Some("Bad Gateway")
    case 503 => Some("Service Unavailable")
    case 504 => Some("Gateway Timeout")
    case 505 => Some("HTTP Version Not Supported")
    case 506 => Some("Variant Also Negotiates")
    case 507 => Some("Insufficient Storage")
    case 508 => Some("Loop Detected")
    case 510 => Some("Not Extended")
    case 511 => Some("Network Authentication Required")
    case _ => None
  }

  const UnknownStatus := "Unknown status"

  const DefaultCode := 200

  /** The text after the code in the `status` field. */
  function ReasonPhrase(code: int): string {
    StatusText(code).GetOr(UnknownStatus)
  }

  /** The `status` field: the code in decimal, a space, the reason phrase. */
  function StatusLine(code: int): string {
    Decimal(code) + " " + ReasonPhrase(code)
  }

  /** The status line begins with the code itself, which reads back as `code`. */
  lemma StatusLineCode(code: int)
    ensures |Decimal(code)| < |StatusLine(code)|
    ensures StatusLine(code)[|Decimal(code)|] == ' '
    ensures ParseInt(StatusLine(code)[..|Decimal(code)|]) == Some(code)
  {
    assert StatusLine(code)[..|Decimal(code)|] == Decimal(code);
    DecimalRoundTrip(code);
  }

  /**
   * The entries `$data ?? []` contributes to `array_merge`. A list keeps its
   * positions as keys (the envelope has no integer keys to renumber past);
   * anything that is not an array makes `array_merge` throw a TypeError.
   */
  function DataEntries(data: Value): (r: Result<map<string, Value>>)
    ensures r.Ok? <==> data.Null? || IsArray(data)
    ensures !(data.Null? || IsArray(data)) ==> r == Err(TypeError)
    ensures data.Null? ==> r == Ok(map[])
    ensures data.Assoc? ==> r == Ok(data.entries)
    ensures data.Arr? ==> r == Ok(IndexMap(data.items))
    ensures data.Arr? ==> forall i :: 0 <= i < |data.items| ==>
      Decimal(i) in r.value && r.value[Decimal(i)] == data.items[i]
  {
    match data
    case Null => Ok(map[])
    case Arr(items) => Ok(IndexMap(items))
    case Assoc(entries) => Ok(entries)
    case _ => Err(TypeError)
  }

  /**
   * `api_response($message, $data, $code)`: the envelope
   * `array_merge(['status' => ..., 'message' => ...], $data ?? [])` sent with
   * status `code`; data keys come later and so win over `status`/`message`.
   */
  function ApiResponse(message: string, data: Value, code: int := DefaultCode): (r: Result<Response>)
    ensures r.Ok? <==> (data.Null? || IsArray(data)) && ValidStatus(code)
    ensures !(data.Null? || IsArray(data)) ==> r == Err(TypeError)
    ensures (data.Null? || IsArray(data)) && !ValidStatus(code) ==> r == Err(InvalidStatusCode(code))
    ensures r.Ok? ==> r.value.status == code
    ensures r.Ok? ==> r.value.body.Keys == {"status", "message"} + DataEntries(data).value.Keys
    ensures r.Ok? ==> forall k :: k in DataEntries(data).value ==>
      r.value.body[k] == DataEntries(data).value[k]
    ensures r.Ok? && "status" !in DataEntries(data).value ==>
      r.value.body["status"] == Str(StatusLine(code))
    ensures r.Ok? && "message" !in DataEntries(data).value ==>
      r.value.body["message"] == Str(message)
  {
    match DataEntries(data)
    case Err(e) => Err(e)
    case Ok(entries) =>
      JsonResponse(map["status" := Str(StatusLine(code)), "message" := Str(message)] + entries, code)
  }

  /** With null data and a valid code the body is exactly `{status, message}`. */
  lemma ApiResponseWithoutData(message: string, code: int)
    requires ValidStatus(code)
    ensures ApiResponse(message, Null, code)
         == Ok(Response(code, map["status" := Str(StatusLine(code)), "message" := Str(message)]))
  {
    assert DataEntries(Null) == Ok(map[]);
    var body := map["status" := Str(StatusLine(code)), "message" := Str(message)];
    assert body + map[] == body;
  }

  /**
   * List data never touches the envelope: its keys are positions, which are
   * never `status` or `message`, so both keep their values.
   */
  lemma ApiResponseListKeepsEnvelope(message: string, items: seq<Value>, code: int)
    requires ValidStatus(code)
    ensures var r := ApiResponse(message, Arr(items), code);
      && r.Ok?
      && r.value.body["status"] == Str(StatusLine(code))
      && r.value.body["message"] == Str(message)
      && forall i :: 0 <= i < |items| ==> r.value.body[Decimal(i)] == items[i]
  {
    IndexMapKeys(items);
    forall i | 0 <= i < |items|
      ensures Decimal(i) != "status" && Decimal(i) != "message"
    {
      DecimalStartsWithDigitOrSign(i);
    }
  }

  lemma StatusLineCreated()
    ensures StatusLine(201) == "201 Created"
  {
    assert NatDigits(2) == "2";
    assert NatDigits(20) == NatDigits(2) + "0";
    assert NatDigits(201) == NatDigits(20) + "1";
  }

  lemma StatusLineForbidden()
    ensures StatusLine(403) == "403 Forbidden"
  {
    assert NatDigits(4) == "4";
    assert NatDigits(40) == NatDigits(4) + "0";
    assert NatDigits(403) == NatDigits(40) + "3";
  }

  /** A code missing from the table still gets a status line. */
  lemma StatusLineUnknown()
    ensures StatusLine(499) == "499 Unknown status"
  {
    assert NatDigits(4) == "4";
    assert NatDigits(49) == NatDigits(4) + "9";
    assert NatDigits(499) == NatDigits(49) + "9";
  }

  /** `api_response("ok", ['id' => 1], 201)` answers `{"status":"201 Created","message":"ok","id":1}` with 201. */
  lemma ApiResponseCreatedExample()
    ensures ApiResponse("ok", Assoc(map["id" := Int(1)]), 201)
         == Ok(Response(201, map["status" := Str("201 Created"), "message" := Str("ok"), "id" := Int(1)]))
  {
    StatusLineCreated();
    var entries := map["id" := Int(1)];
    assert DataEntries(Assoc(entries)) == Ok(entries);
    var envelope := map["status" := Str(StatusLine(201)), "message" := Str("ok")];
    assert envelope + entries == map["status" := Str("201 Created"), "message" := Str("ok"), "id" := Int(1)];
  }

  /** A `message` or `status` entry in the data replaces the envelope's own. */
  lemma ApiResponseDataOverrides(message: string, entries: map<string, Value>, code: int)
    requires ValidStatus(code)
    requires "message" in entries && "status" in entries
    ensures var r := ApiResponse(message, Assoc(entries), code);
      r.Ok? && r.value.body == entries
  {
  }

  /**
   * `paginated_response($response)`: the `data` member and the rest. Laravel's
   * `data_get`/`data_forget` on the decoded object test the member with
   * `isset`, so a `data` member holding null is neither returned nor removed.
   */
  function PaginatedResponse(response: map<string, Value>): (r: (Option<Value>, map<string, Value>))
    ensures r.0.Some? <==> "data" in response && response["data"] != Null
    ensures r.0.Some? ==> r.0.value == response["data"]
    ensures r.1.Keys == if r.0.Some? then response.Keys - {"data"} else response.Keys
    ensures forall k :: k in r.1 ==> r.1[k] == response[k]
  {
    if "data" in response && response["data"] != Null then
      (Some(response["data"]), response - {"data"})
    else
      (None, response)
  }

  /** Putting the items back under `data` rebuilds the response the split was given. */
  function Reassemble(items: Option<Value>, metadata: map<string, Value>): map<string, Value> {
    match items
    case Some(v) => metadata["data" := v]
    case None => metadata
  }

  lemma PaginatedResponseRoundTrip(response: map<string, Value>)
    ensures var (items, metadata) := PaginatedResponse(response);
      Reassemble(items, metadata) == response
  {
    var (items, metadata) := PaginatedResponse(response);
    if items.Some? {
      assert Reassemble(items, metadata).Keys == response.Keys;
    }
  }

  /** Without `data` the items are null and the metadata is the whole response. */
  lemma PaginatedResponseWithoutData(response: map<string, Value>)
    requires "data" !in response
    ensures PaginatedResponse(response) == (None, response)
  {
  }

  lemma PaginatedResponseExample()
    ensures PaginatedResponse(map["data" := Arr([Int(1), Int(2), Int(3)]), "total" := Int(3), "page" := Int(1)])
         == (Some(Arr([Int(1), Int(2), Int(3)])), map["total" := Int(3), "page" := Int(1)])
  {
    var response := map["data" := Arr([Int(1), Int(2), Int(3)]), "total" := Int(3), "page" := Int(1)];
    assert response - {"data"} == map["total" := Int(3), "page" := Int(1)];
  }
}
